=== FILE: README.md ===
# Adafruit MacroPad helper: key order and example state machines

This project models, in Dafny, the logic of an early revision of the
CircuitPython `adafruit_macropad` helper library and of three of its example
programs.

In `MacroPad.__init__` the board's twelve keys (pins `KEY1`..`KEY12`) are handed
to the key scanner in one of four fixed orders. The choice depends on the
rotation: 0, 90, 180 or 270 degrees. The model takes the scanner to number
each key by the position of its pin in that order, as the scanner documents. The library promises that key number 0 is
always the top-left key as the user holds the board, with numbers running
left to right and top to bottom. Any other rotation raises `ValueError`.

The constructor also passes the rotation on to the display and shifts the
0-based MIDI channels to MIDI's 1-based ones. The `encoder` and
`encoder_switch` properties negate the raw readings.

The examples add small state machines driven by key events:

- the extended tone demo keeps a stack of pressed keys in press order and
  plays the tone of the most recently pressed key;
- the grid layout demo shows "KEY<n>" in a 3 x 4 grid while key n is down;
- the rainbow keys demo toggles a key's LED animation on every press.

The model is functional. Key orders are constant sequences of pin numbers,
and `Result` stands for the raised exception. Each main-loop pass is a function
or method from a state record and the pending events to the next state. The
hardware calls a pass makes (`start_tone`, `stop_tone`, pixel writes, `show`)
are returned as a trace of `Call` values.

The pin orders are proved against an independent geometric definition of the
documented layout, `MacroPad.PhysicalKeyAt`. The board upright is a grid three
keys wide and four tall. Turned 90 or 270 degrees it is four wide and three
tall. Each table equals that layout key by key, and the layout is proved to be
a bijection with an explicit inverse, `MacroPad.KeyNumberAt`.

Files:

- `wrappers.dfy`: `Option` and `Result`.
- `key_events.dfy`: the key-event record.
- `sequences.dfy`: `list.index` and `list.remove`.
- `decimal.dfy`: decimal formatting of a key number, with its parser as partner.
- `macropad.dfy`: the library.
- `tone_keypad.dfy`, `grid_layout.dfy`, `rainbow_keys.dfy`: the three examples.

The key orders are modelled as the code writes them, as pin numbers 1..12.

## Model

| member | source | states |
|---|---|---|
| MacroPad.KeyOrder | adafruit_macropad.py:77-144 | Fails with `ValueError("Only 90 degree rotations are supported.")` exactly when the rotation is not 0, 90, 180 or 270. Otherwise the result is a permutation of the twelve pins (twelve entries, each pin exactly once) and equals the documented left-to-right, top-to-bottom layout for that rotation, key by key. |
| MacroPad.LayoutBijection | adafruit_macropad.py:60-68 | The documented layout is a bijection between key numbers 0..11 and pins 1..12, for every supported rotation. `KeyNumberAt` is a two-sided inverse of `PhysicalKeyAt`. |
| MacroPad.KeyNumberAtPhysicalKeyAt | adafruit_macropad.py:60-68 | The pin under key number i is a board pin, and mapping it back gives i. |
| MacroPad.PhysicalKeyAtKeyNumberAt | adafruit_macropad.py:60-68 | Every board pin gets a key number in 0..11, and the layout puts that key number back on the same pin. |
| MacroPad.LayoutOrderIsPermutation | adafruit_macropad.py:82-144 | Any twelve-entry order that follows the layout has no repeated pin and misses none. |
| MacroPad.Order0FollowsLayout | adafruit_macropad.py:82-96 | The upright table puts, at every position, the pin the layout assigns. |
| MacroPad.Order90FollowsLayout | adafruit_macropad.py:98-112 | With the USB port to the left, the user's columns are the board's rows and the user's rows run from the board's right column to its left. |
| MacroPad.Order180FollowsLayout | adafruit_macropad.py:114-128 | The upside-down table mirrors both axes of the board. |
| MacroPad.Order270FollowsLayout | adafruit_macropad.py:130-144 | With the USB port to the right, the table follows the layout turned the other way. |
| MacroPad.Rotation0IsIdentity | adafruit_macropad.py:82-96 | At rotation 0, key number i is pin KEY(i+1). |
| MacroPad.Rotation180ReversesRotation0 | adafruit_macropad.py:82-128 | The 180-degree order is the 0-degree order read backwards. |
| MacroPad.Rotation270ReversesRotation90 | adafruit_macropad.py:98-144 | The 270-degree order is the 90-degree order read backwards. |
| MacroPad.Rotation90GridFormula | adafruit_macropad.py:98-112 | At 90 degrees, key i is the board key with 0-based index `3 * (i % 4) + (2 - i / 4)`. This is the four-wide rotated grid. |
| MacroPad.ScannedKeyNumber | adafruit_macropad.py:146 | The scanner reports a key exactly when its pin is in the pin tuple. It reports it under a position that holds that pin. |
| MacroPad.ScannerFollowsLayout | adafruit_macropad.py:60-68 | A scanner built with `KeyOrder(rotation)` reports every board key under the number the documented layout gives it. So key 0 is the user's top-left key in every rotation. |
| MacroPad.NewMacroPad | adafruit_macropad.py:77-179 | The constructor raises exactly for an unsupported rotation. On success the scanner gets a layout-following permutation, the display gets exactly the given rotation, and the MIDI in/out channels are the arguments plus one. |
| MacroPad.DefaultMacroPad | adafruit_macropad.py:77 | `MacroPad()` is upright, with pins in order and MIDI channel 1 both ways. |
| MacroPad.MidiChannel | adafruit_macropad.py:175-178 | The MIDI channel is one more than the CircuitPython channel. |
| MacroPad.MidiChannelRange | adafruit_macropad.py:175-178 | The shift maps CircuitPython channels 0..15 one to one onto MIDI channels 1..16. |
| MacroPad.EncoderReading | adafruit_macropad.py:248-250 | The `encoder` reading is the negated raw position. |
| MacroPad.EncoderReversesDirection | adafruit_macropad.py:250 | The reading moves by the opposite of any move of the raw count. |
| MacroPad.EncoderSwitch | adafruit_macropad.py:252-254 | The switch reads pressed exactly when its pulled-up pin reads low. |
| Sequences.RemoveFirst | examples/macropad_tone_keypad_extended.py:56-58 | `list.remove` needs the element to be present. It shortens the list by one, dropping the first occurrence and keeping everything before and after it in order. |
| Sequences.RemoveFirstMultiset | examples/macropad_tone_keypad_extended.py:58 | `list.remove` takes away exactly one copy of the element and keeps every other element with its count. |
| Sequences.RemoveFirstDistinct | examples/macropad_tone_keypad_extended.py:58 | Removing a key from a stack without repeats leaves a stack without repeats. |
| ToneKeypad.RgbFromInt | examples/macropad_tone_keypad_extended.py:33-37 | `rgb_from_int` yields three components in 0..255. For 0 <= rgb < 2^24, red*65536 + green*256 + blue == rgb. |
| ToneKeypad.RgbRoundTrip | examples/macropad_tone_keypad_extended.py:33-37 | Splitting a packed `0xRRGGBB` colour gives back the three bytes it was packed from. |
| ToneKeypad.RgbKeepsLow24Bits | examples/macropad_tone_keypad_extended.py:33-37 | For any int, including negative ones under Python's `&`/`>>` semantics, packing the split components gives back the low 24 bits. |
| ToneKeypad.Apply | examples/macropad_tone_keypad_extended.py:53-58 | A press puts its key on top of the stack and keeps the old stack below it. A release shortens the stack by one and removes exactly one copy of the key, dropping the first occurrence and keeping the other keys in order. |
| ToneKeypad.Drain | examples/macropad_tone_keypad_extended.py:47-61 | The event loop keeps the count: final stack size plus releases equals initial size plus presses. Its pixel calls switch off the released keys' pixels, one per release, in release order. |
| ToneKeypad.StackIsPressOrder | examples/macropad_tone_keypad_extended.py:22-25 | Assume presses of keys not held and releases of held keys. Then the stack after a batch is the old stack's untouched keys followed by the keys whose last event was a press, in press order. It never holds a key twice. |
| ToneKeypad.FromEmptyStackIsPressOrder | examples/macropad_tone_keypad_extended.py:22-25 | From an empty stack, the stack lists exactly the keys still held, in the order they were pressed. |
| ToneKeypad.SelectTone | examples/macropad_tone_keypad_extended.py:63-86 | Afterwards the playing key is the top of the stack, or none when the stack is empty. The speaker calls alternate from the previous state: a playing tone is stopped before a new one starts. No speaker call is made exactly when the playing key already equals the top of the stack, which includes an empty stack with nothing playing. The only tone started is `tones[top]`, and it is the last call. |
| ToneKeypad.Repaint | examples/macropad_tone_keypad_extended.py:88-100 | One pixel write per stack entry, in stack order, at colour-wheel position `21 * key`. It is dimmed exactly when its key is not the playing one. |
| ToneKeypad.OnlyTopIsBright | examples/macropad_tone_keypad_extended.py:94-100 | With the top key playing and no repeats on the stack, exactly the top key is shown at full brightness. |
| ToneKeypad.Step | examples/macropad_tone_keypad_extended.py:42-103 | After one pass, `playing_index` is the top of the stack and the speaker calls alternate from the previous state. `show` is called exactly when at least one event was processed. A pixel is switched off exactly when its key was released. The trace comes in three parts, in this order: one pixel-off call per release, in release order; exactly the speaker calls of `SelectTone` for the final stack, so none when the top key is unchanged, and otherwise a stop of any playing tone followed by `play(tones[top])` when the stack is non-empty; and, when an event arrived, the repaint of the final stack with the playing key bright, followed by `show`. A pass without events makes speaker calls only. |
| ToneKeypad.Run | examples/macropad_tone_keypad_extended.py:42-103 | Zero passes change nothing and call nothing. After at least one pass, `playing_index` is the top of the stack. |
| ToneKeypad.ToneCallsAlternate | examples/macropad_tone_keypad_extended.py:42-86 | Over any number of passes, `start_tone` and `stop_tone` strictly alternate. A tone sounds at the end exactly when a key is held, and `playing_index` stays equal to the top of the stack. |
| ToneKeypad.ToneCallsAlternateFromStart | examples/macropad_tone_keypad_extended.py:25-29 | From the initial empty stack with nothing playing, the whole run's speaker calls alternate, beginning with `start_tone`. |
| Decimal.Format | examples/macropad_grid_layout.py:42 | `"{}".format` of a natural number is a non-empty string of decimal digits without a leading zero. |
| Decimal.ParseFormat | examples/macropad_grid_layout.py:42 | The decimal text written by `"{}".format` for a number reads back as that number. |
| Decimal.FormatInjective | examples/macropad_grid_layout.py:42 | Distinct numbers get distinct decimal texts. |
| GridLayout.Cell | examples/macropad_grid_layout.py:30-33 | Key `index` goes to cell `(index % 3, index // 3)`. The cell lies in the 3 x 4 grid, and `y * 3 + x == index`. |
| GridLayout.KeyAt | examples/macropad_grid_layout.py:30-33 | Every cell of the 3 x 4 grid is the cell of some key. |
| GridLayout.CellBijection | examples/macropad_grid_layout.py:25-33 | Placement is one to one, and `KeyAt` is its two-sided inverse on the `grid_size=(3, 4)` grid. |
| GridLayout.PlaceLabels | examples/macropad_grid_layout.py:30-33 | The placement loop puts twelve labels into twelve distinct cells that cover the grid. Label i goes where row-major numbering puts i. The rainbow demo's loop is the same. |
| GridLayout.KeyLabel | examples/macropad_grid_layout.py:42 | The text for key k is "KEY" followed by a decimal numeral that reads back as k and has no leading zero, so it is the canonical numeral `"{}".format` writes. |
| GridLayout.KeyLabelInjective | examples/macropad_grid_layout.py:42 | Different keys show different texts. |
| GridLayout.UpdateLabels | examples/macropad_grid_layout.py:38-44 | A press of key k sets label k to "KEY{k}", and a release sets it to "". No other label changes, and a pass without an event changes nothing. |
| GridLayout.LabelsAfter | examples/macropad_grid_layout.py:38-44 | Over any sequence of loop passes, each label only ever shows its old text, the empty text or its own key's "KEY{k}". |
| GridLayout.LabelShowsLastEvent | examples/macropad_grid_layout.py:38-44 | After any sequence of passes, each label reflects the last event for its key: "KEY{k}" after a press, "" after a release, unchanged if there was none. |
| GridLayout.LabelsShowHeldKeys | examples/macropad_grid_layout.py:26-44 | From blank labels, a label is non-empty exactly while its key is down, and then it names that key. |
| RainbowKeys.Toggle | examples/macropad_rainbow_keys.py:43-50 | A press of key k flips `lit_keys[k]`. A release, or no event, leaves every entry unchanged. |
| RainbowKeys.PressTwiceRestores | examples/macropad_rainbow_keys.py:48 | Pressing the same key twice restores the whole toggle array. |
| RainbowKeys.LitAfter | examples/macropad_rainbow_keys.py:42-50 | Over any sequence of loop passes, a key that was never pressed keeps its `lit_keys` entry. |
| RainbowKeys.LitIsPressParity | examples/macropad_rainbow_keys.py:40-48 | After any sequence of passes, a key is lit exactly when its initial state differs from whether it was pressed an odd number of times. |
| RainbowKeys.LitFromStartIsOddPresses | examples/macropad_rainbow_keys.py:40-48 | From the initial all-dark `lit_keys`, a key is lit after any sequence of passes exactly when it was pressed an odd number of times. |
| RainbowKeys.Frame | examples/macropad_rainbow_keys.py:53-57 | All twelve pixels are written. A pixel is switched off exactly when its key is unlit; a lit key's pixel is animated with its own index and the current offset. |
| RainbowKeys.Iteration | examples/macropad_rainbow_keys.py:42-57 | One pass toggles on a press, updates the label as the grid demo does, advances `wheel_offset` by exactly one, and writes the whole strip using the new offset. |

## Left out

- Driver construction is not modelled: `keypad.Keys`, `rotaryio`, `digitalio`, `neopixel.NeoPixel`, `board.DISPLAY` and the red LED. These are foreign driver calls. The model keeps what they are configured with (the pin order, the display rotation and the MIDI channel numbers), plus one documented rule of the key scanner, described next.
- MacroPad.ScannedKeyNumber: `keypad.Keys` belongs to a foreign library whose code is not part of this model. The model assumes its documented `key_number` rule: a key is numbered by the position of its pin in the tuple it was built with. `MacroPad.ScannerFollowsLayout` holds only under that assumption.
- The `pixels`, `keys`, `red_led`, `keyboard`, `keyboard_layout`, `consumer_control`, `mouse` and `midi` properties are left out. They return or set driver objects unchanged. This revision does no pixel remapping under rotation.
- The `Keycode`, `ConsumerControlCode`, `NoteOn`, `NoteOff`, `PitchBend` and `ControlChange` accessors and `text_display` are left out. They return library classes or a display object.
- The tuple form of `midi_in_channel` is left out. The docstring mentions it, but the code only adds 1 to an int.
- Tone generation and file playback are left out. `start_tone` and `stop_tone` are not defined in this revision, so the tone demo's calls to them are trace events.
- `colorwheel` is an external function and is left out. The trace records its argument instead: `21 * key` in the tone demo, the key and the offset in the rainbow demo. The rainbow demo's float argument `pixel / 12 * 256 + wheel_offset` is not computed.
- The tone demo's 10% dimming works on floats and is recorded only as a flag.
- The infinite `while True` loops are modelled one pass at a time (`Step`, `Iteration`, `UpdateLabels`), plus folds over many passes. The event queue becomes a sequence of events, or an optional event per pass.
- ToneKeypad.Step: the source raises `ValueError` from `list.remove` when a released key is not on the stack. The model instead requires every release to be of a held key. This is an assumption about the foreign key scanner, not a guarantee: it must deliver a release only after that key's press, and no event may be dropped by a full event queue (a dropped press followed by its release would make `list.remove` raise).
- ToneKeypad.StackIsPressOrder: the press-order characterisation assumes, without a guarantee from the foreign key scanner, that a key is pressed only while up and released only while down, with no event dropped by a full event queue.
- The remaining examples are left out: keyboard/mouse, keyboard layout, mp3, rotation, the simple tests, the basic tone demo, LED animation and the display-image demos. They only drive HID, audio, display or animation libraries.

=== FILE: arithmetic.dfy ===
/** Facts about integer division shared by the key layout and the colour packing. */
module Arithmetic {

  /** A positive multiple of a positive divisor is at least the divisor. */
  lemma {:induction false} MultipleAtLeast(k: int, d: int)
    requires 0 < k && 0 < d
    ensures d <= k * d
  {
  }

  /** Quotient and remainder by a positive divisor are determined by
      `n == q * d + rem` with `0 <= rem < d`. */
  lemma {:induction false} DivModUnique(n: int, d: int, q: int, rem: int)
    requires 0 < d && 0 <= rem < d && n == q * d + rem
    ensures n / d == q && n % d == rem
  {
    var q', rem' := n / d, n % d;
    assert (q - q') * d == rem' - rem;
    if q' < q {
      MultipleAtLeast(q - q', d);
    } else if q < q' {
      assert (q' - q) * d == rem - rem';
      MultipleAtLeast(q' - q, d);
    }
  }
}

=== FILE: decimal.dfy ===
/** Decimal text of a natural number, as Python's `str.format` writes an `int`
    that is not negative. */
module Decimal {

  const Digits := "0123456789"

  predicate IsDigit(c: char)
  {
    '0' <= c <= '9'
  }

  predicate AllDigits(s: string)
  {
    forall i :: 0 <= i < |s| ==> IsDigit(s[i])
  }

  function DigitValue(c: char): (d: nat)
    requires IsDigit(c)
    ensures d < 10 && Digits[d] == c
  {
    (c as int) - ('0' as int)
  }

  /** The shortest decimal numeral of `n`: never empty, no leading zero. */
  function Format(n: nat): (s: string)
    ensures |s| >= 1 && AllDigits(s)
    ensures |s| > 1 ==> s[0] != '0'
    decreases n
  {
    if n < 10 then [Digits[n]]
    else Format(n / 10) + [Digits[n % 10]]
  }

  /** The value a numeral denotes (the empty numeral denotes 0). */
  function Parse(s: string): nat
    requires AllDigits(s)
  {
    if |s| == 0 then 0
    else Parse(s[..|s| - 1]) * 10 + DigitValue(s[|s| - 1])
  }

  /** Reading back a formatted number gives the number. */
  lemma {:induction false} ParseFormat(n: nat)
    ensures Parse(Format(n)) == n
    decreases n
  {
    var s := Format(n);
    if n < 10 {
      assert DigitValue(s[0]) == n;
    } else {
      ParseFormat(n / 10);
      assert s[..|s| - 1] == Format(n / 10);
      assert DigitValue(s[|s| - 1]) == n % 10;
    }
  }

  /** Distinct numbers get distinct numerals. */
  lemma {:induction false} FormatInjective(m: nat, n: nat)
    requires Format(m) == Format(n)
    ensures m == n
  {
    ParseFormat(m);
    ParseFormat(n);
  }
}

=== FILE: grid_layout.dfy ===
/** The grid layout demo (examples/macropad_grid_layout.py): twelve labels placed
    on a three-wide, four-tall grid in key order, each showing "KEY<n>" while its
    key is down and nothing otherwise. */
module GridLayout {
  import opened Wrappers
  import opened KeyEvents
  import Decimal
  import Sequences

  /** `grid_size=(3, 4)`. */
  const GridColumns := 3
  const GridRows := 4

  predicate InGrid(x: int, y: int)
  {
    0 <= x < GridColumns && 0 <= y < GridRows
  }

  /** `grid_position=(index % 3, index // 3)`: the cell that shows key `index`. */
  function Cell(index: KeyNumber): (cell: (int, int))
    ensures InGrid(cell.0, cell.1)
    ensures cell.1 * GridColumns + cell.0 == index
  {
    (index % 3, index / 3)
  }

  /** The key shown in cell (`x`, `y`). */
  function KeyAt(x: int, y: int): (index: KeyNumber)
    requires InGrid(x, y)
    ensures Cell(index) == (x, y)
  {
    y * GridColumns + x
  }

  /** Placement is a bijection from the twelve keys onto the twelve cells. */
  lemma {:induction false} CellBijection()
    ensures forall i: KeyNumber, j: KeyNumber :: Cell(i) == Cell(j) ==> i == j
    ensures forall i: KeyNumber :: KeyAt(Cell(i).0, Cell(i).1) == i
    ensures forall x, y :: InGrid(x, y) ==> Cell(KeyAt(x, y)) == (x, y)
  {
  }

  /** The placement loop `for index in range(12)`: the cell each label goes into,
      in label order. Every cell receives exactly one label, label `i` going where
      row-major numbering of the grid puts `i`. */
  method PlaceLabels() returns (placed: seq<(int, int)>)
    ensures |placed| == KeyCount
    ensures forall i :: 0 <= i < KeyCount ==> InGrid(placed[i].0, placed[i].1)
    ensures forall i :: 0 <= i < KeyCount ==> placed[i].1 * GridColumns + placed[i].0 == i
    ensures forall x, y :: InGrid(x, y) ==> (x, y) in placed
    ensures Sequences.Distinct(placed)
  {
    placed := [];
    var index := 0;
    while index < KeyCount
      invariant 0 <= index <= KeyCount && |placed| == index
      invariant forall i :: 0 <= i < index ==> placed[i] == Cell(i)
    {
      var x := index % 3;
      var y := index / 3;
      placed := placed + [(x, y)];
      index := index + 1;
    }
    forall x, y | InGrid(x, y)
      ensures (x, y) in placed
    {
      assert placed[KeyAt(x, y)] == (x, y);
    }
  }

  /** `"KEY{}".format(k)`: the text shown while key `k` is down. */
  function KeyLabel(k: KeyNumber): (text: string)
    ensures |text| > 3 && text[..3] == "KEY"
    ensures Decimal.AllDigits(text[3..]) && Decimal.Parse(text[3..]) == k
    ensures |text| > 4 ==> text[3] != '0'
  {
    Decimal.ParseFormat(k);
    assert ("KEY" + Decimal.Format(k))[3..] == Decimal.Format(k);
    "KEY" + Decimal.Format(k)
  }

  /** Different keys show different texts. */
  lemma {:induction false} KeyLabelInjective(j: KeyNumber, k: KeyNumber)
    requires KeyLabel(j) == KeyLabel(k)
    ensures j == k
  {
  }

  /** One pass of the main loop: a press writes the key's text into its label,
      a release clears it, and no event changes nothing. */
  function UpdateLabels(labels: seq<string>, event: Option<KeyEvent>): (r: seq<string>)
    requires |labels| == KeyCount
    ensures |r| == KeyCount
    ensures event.None? ==> r == labels
    ensures event.Some? ==> r[event.value.key] == (if event.value.pressed then KeyLabel(event.value.key) else "")
    ensures forall j :: 0 <= j < KeyCount && (event.None? || j != event.value.key) ==> r[j] == labels[j]
  {
    match event
    case None => labels
    case Some(e) => labels[e.key := if e.pressed then KeyLabel(e.key) else ""]
  }

  /** The labels after a sequence of passes. */
  function LabelsAfter(labels: seq<string>, events: seq<Option<KeyEvent>>): (r: seq<string>)
    requires |labels| == KeyCount
    ensures |r| == KeyCount
    ensures forall k :: 0 <= k < KeyCount ==> r[k] == labels[k] || r[k] == "" || r[k] == KeyLabel(k)
    decreases |events|
  {
    if |events| == 0 then labels else LabelsAfter(UpdateLabels(labels, events[0]), events[1..])
  }

  /** Whether the last event for key `k` was a press (`Some(true)`), a release
      (`Some(false)`), or there was none. */
  function LastEventFor(events: seq<Option<KeyEvent>>, k: KeyNumber): Option<bool>
  {
    if |events| == 0 then None
    else match LastEventFor(events[1..], k)
      case Some(pressed) => Some(pressed)
      case None =>
        if events[0].Some? && events[0].value.key == k then Some(events[0].value.pressed) else None
  }

  /** Each label shows what the last event for its key says: the key's text after a
      press, nothing after a release, and its old text when the key saw no event. */
  lemma {:induction false} LabelShowsLastEvent(labels: seq<string>, events: seq<Option<KeyEvent>>, k: KeyNumber)
    requires |labels| == KeyCount
    ensures LabelsAfter(labels, events)[k]
         == match LastEventFor(events, k) {
              case None => labels[k]
              case Some(pressed) => if pressed then KeyLabel(k) else ""
            }
    decreases |events|
  {
    if |events| > 0 {
      LabelShowsLastEvent(UpdateLabels(labels, events[0]), events[1..], k);
    }
  }

  /** From blank labels, a label is non-empty exactly while its key is down, and then
      it names that key. */
  lemma {:induction false} LabelsShowHeldKeys(events: seq<Option<KeyEvent>>, k: KeyNumber)
    ensures var shown := LabelsAfter(seq(KeyCount, _ => ""), events)[k];
            (shown != "" <==> LastEventFor(events, k) == Some(true))
            && (shown != "" ==> shown == KeyLabel(k))
  {
    LabelShowsLastEvent(seq(KeyCount, _ => ""), events, k);
  }
}

=== FILE: key_events.dfy ===
/** Key events as the `keypad.Keys` scanner delivers them: the key number is the
    position of the key's pin in the pin tuple the scanner was built with, so on
    the twelve-key MacroPad it is always one of 0..11. A release is an event
    whose `pressed` flag is false. */
module KeyEvents {

  /** Number of keys, and of NeoPixels, on the board. */
  const KeyCount := 12

  type KeyNumber = k: int | 0 <= k < KeyCount

  datatype KeyEvent = KeyEvent(key: KeyNumber, pressed: bool)
}

=== FILE: macropad.dfy ===
/** `MacroPad.__init__` and the value-returning properties of adafruit_macropad.py:
    which physical key the scanner reports under each key number for the four
    supported rotations, what the display and MIDI port are configured with, and
    how the encoder and its switch are read. */
module MacroPad {
  import opened Wrappers
  import opened KeyEvents
  import Sequences
  import Arithmetic

  /* Physical keys are named by their pins, KEY1..KEY12. With the USB port at the
     top the keys form a grid three wide and four tall, numbered left to right,
     top to bottom. */
  const PhysicalColumns := 3
  const PhysicalRows := 4

  predicate IsPhysicalKey(p: int)
  {
    1 <= p <= KeyCount
  }

  /** The pin tuples handed to the key scanner, as pin numbers. */
  const Order0: seq<int> := [1, 2, 3, 4, 5, 6, 7, 8, 9, 10, 11, 12]
  const Order90: seq<int> := [3, 6, 9, 12, 2, 5, 8, 11, 1, 4, 7, 10]
  const Order180: seq<int> := [12, 11, 10, 9, 8, 7, 6, 5, 4, 3, 2, 1]
  const Order270: seq<int> := [10, 7, 4, 1, 11, 8, 5, 2, 12, 9, 6, 3]

  predicate ValidRotation(rotation: int)
  {
    rotation == 0 || rotation == 90 || rotation == 180 || rotation == 270
  }

  /** The exception the constructor raises. */
  datatype ConfigError = ValueError(message: string)

  const RotationMessage := "Only 90 degree rotations are supported."

  /* ---- The documented layout, as geometry ----
     Whatever the rotation, key number 0 is the top-left key as the user sees
     the board and numbers run left to right, top to bottom. */

  /** Width of the grid as the user sees it: three keys upright or upside down,
      four when the board lies on its side. */
  function Columns(rotation: int): nat
  {
    if rotation == 90 || rotation == 270 then PhysicalRows else PhysicalColumns
  }

  /** The pin number of the key the user sees at column `c`, row `r`. At 90 degrees
      (USB port to the left) the user's columns are the board's rows and the user's
      rows run from the board's right column to its left; 180 degrees mirrors both
      axes, 270 degrees is 90 degrees turned over once more. */
  function PhysicalKeyAtCell(rotation: int, c: int, r: int): int
  {
    var (pc, pr) :=
      if rotation == 90 then (2 - r, c)
      else if rotation == 180 then (2 - c, 3 - r)
      else if rotation == 270 then (r, 3 - c)
      else (c, r);
    PhysicalColumns * pr + pc + 1
  }

  /** The pin number of the key the documented layout gives key number `i`. */
  function PhysicalKeyAt(rotation: int, i: KeyNumber): int
    requires ValidRotation(rotation)
  {
    PhysicalKeyAtCell(rotation, i % Columns(rotation), i / Columns(rotation))
  }

  /** The key number the documented layout gives the key on pin `p`. */
  function KeyNumberAt(rotation: int, p: int): int
    requires ValidRotation(rotation) && IsPhysicalKey(p)
  {
    var pc := (p - 1) % PhysicalColumns;
    var pr := (p - 1) / PhysicalColumns;
    var (c, r) :=
      if rotation == 90 then (pr, 2 - pc)
      else if rotation == 180 then (2 - pc, 3 - pr)
      else if rotation == 270 then (3 - pr, pc)
      else (pc, pr);
    r * Columns(rotation) + c
  }

  /** `KeyNumberAt` undoes `PhysicalKeyAt`. */
  lemma {:induction false} KeyNumberAtPhysicalKeyAt(rotation: int, i: KeyNumber)
    requires ValidRotation(rotation)
    ensures IsPhysicalKey(PhysicalKeyAt(rotation, i))
    ensures KeyNumberAt(rotation, PhysicalKeyAt(rotation, i)) == i
  {
    var n := Columns(rotation);
    var c, r := i % n, i / n;
    assert i == r * n + c;
    var p := PhysicalKeyAt(rotation, i);
    var (pc, pr) :=
      if rotation == 90 then (2 - r, c)
      else if rotation == 180 then (2 - c, 3 - r)
      else if rotation == 270 then (r, 3 - c)
      else (c, r);
    assert p == PhysicalColumns * pr + pc + 1;
    Arithmetic.DivModUnique(p - 1, PhysicalColumns, pr, pc);
  }

  /** `PhysicalKeyAt` undoes `KeyNumberAt`. */
  lemma {:induction false} PhysicalKeyAtKeyNumberAt(rotation: int, p: int)
    requires ValidRotation(rotation) && IsPhysicalKey(p)
    ensures 0 <= KeyNumberAt(rotation, p) < KeyCount
    ensures PhysicalKeyAt(rotation, KeyNumberAt(rotation, p)) == p
  {
    var n := Columns(rotation);
    var pc := (p - 1) % PhysicalColumns;
    var pr := (p - 1) / PhysicalColumns;
    var (c, r) :=
      if rotation == 90 then (pr, 2 - pc)
      else if rotation == 180 then (2 - pc, 3 - pr)
      else if rotation == 270 then (3 - pr, pc)
      else (pc, pr);
    var i := KeyNumberAt(rotation, p);
    assert i == r * n + c;
    Arithmetic.DivModUnique(i, n, r, c);
  }

  /** The layout is a bijection between key numbers and pins. */
  lemma {:induction false} LayoutBijection(rotation: int)
    requires ValidRotation(rotation)
    ensures forall i :: 0 <= i < KeyCount ==>
              IsPhysicalKey(PhysicalKeyAt(rotation, i)) && KeyNumberAt(rotation, PhysicalKeyAt(rotation, i)) == i
    ensures forall p :: IsPhysicalKey(p) ==>
              0 <= KeyNumberAt(rotation, p) < KeyCount && PhysicalKeyAt(rotation, KeyNumberAt(rotation, p)) == p
  {
    forall i | 0 <= i < KeyCount
      ensures IsPhysicalKey(PhysicalKeyAt(rotation, i)) && KeyNumberAt(rotation, PhysicalKeyAt(rotation, i)) == i
    {
      KeyNumberAtPhysicalKeyAt(rotation, i);
    }
    forall p | IsPhysicalKey(p)
      ensures 0 <= KeyNumberAt(rotation, p) < KeyCount && PhysicalKeyAt(rotation, KeyNumberAt(rotation, p)) == p
    {
      PhysicalKeyAtKeyNumberAt(rotation, p);
    }
  }

  /** Twelve pins, each board key exactly once. */
  predicate IsKeyPermutation(order: seq<int>)
  {
    && |order| == KeyCount
    && (forall i :: 0 <= i < |order| ==> IsPhysicalKey(order[i]))
    && Sequences.Distinct(order)
    && (forall p :: 1 <= p <= KeyCount ==> p in order)
  }

  /** Any pin order that follows the documented layout is a permutation of the keys. */
  lemma {:induction false} LayoutOrderIsPermutation(rotation: int, order: seq<int>)
    requires ValidRotation(rotation) && |order| == KeyCount
    requires forall i :: 0 <= i < KeyCount ==> order[i] == PhysicalKeyAt(rotation, i)
    ensures IsKeyPermutation(order)
  {
    LayoutBijection(rotation);
    forall i, j | 0 <= i < j < |order|
      ensures order[i] != order[j]
    {
      assert KeyNumberAt(rotation, order[i]) == i;
      assert KeyNumberAt(rotation, order[j]) == j;
    }
    forall p | IsPhysicalKey(p)
      ensures p in order
    {
      assert order[KeyNumberAt(rotation, p)] == p;
    }
  }

  /** Each constant pin tuple follows the documented layout. */
  lemma {:induction false} Order0FollowsLayout()
    ensures forall i :: 0 <= i < KeyCount ==> Order0[i] == PhysicalKeyAt(0, i)
  {
  }

  lemma {:induction false} Order90FollowsLayout()
    ensures forall i :: 0 <= i < KeyCount ==> Order90[i] == PhysicalKeyAt(90, i)
  {
  }

  lemma {:induction false} Order180FollowsLayout()
    ensures forall i :: 0 <= i < KeyCount ==> Order180[i] == PhysicalKeyAt(180, i)
  {
  }

  lemma {:induction false} Order270FollowsLayout()
    ensures forall i :: 0 <= i < KeyCount ==> Order270[i] == PhysicalKeyAt(270, i)
  {
  }

  /** The pin order `MacroPad(rotation)` builds its key scanner with, or the
      `ValueError` it raises for a rotation other than 0, 90, 180 or 270. */
  function KeyOrder(rotation: int): (r: Result<seq<int>, ConfigError>)
    ensures r.Failure? <==> !ValidRotation(rotation)
    ensures r.Failure? ==> r.error == ValueError(RotationMessage)
    ensures r.Success? ==> IsKeyPermutation(r.value)
    ensures r.Success? ==> forall i :: 0 <= i < KeyCount ==> r.value[i] == PhysicalKeyAt(rotation, i)
  {
    if !ValidRotation(rotation) then Failure(ValueError(RotationMessage))
    else
      Order0FollowsLayout();
      Order90FollowsLayout();
      Order180FollowsLayout();
      Order270FollowsLayout();
      var order :=
        if rotation == 0 then Order0
        else if rotation == 90 then Order90
        else if rotation == 180 then Order180
        else Order270;
      LayoutOrderIsPermutation(rotation, order);
      Success(order)
  }

  /** With the USB port at the top the key numbers are the pins in order: key `i` is KEY(i+1). */
  lemma {:induction false} Rotation0IsIdentity()
    ensures KeyOrder(0).Success?
    ensures forall i :: 0 <= i < KeyCount ==> KeyOrder(0).value[i] == i + 1
  {
  }

  /** Upside down (USB port at the bottom) the pin order is the upright one read backwards. */
  lemma {:induction false} Rotation180ReversesRotation0()
    ensures KeyOrder(0).Success? && KeyOrder(180).Success?
    ensures forall i :: 0 <= i < KeyCount ==> KeyOrder(180).value[i] == KeyOrder(0).value[KeyCount - 1 - i]
  {
    assert KeyOrder(0).value == Order0 && KeyOrder(180).value == Order180;
  }

  /** USB port to the right, the pin order is the USB-port-to-the-left one read backwards. */
  lemma {:induction false} Rotation270ReversesRotation90()
    ensures KeyOrder(90).Success? && KeyOrder(270).Success?
    ensures forall i :: 0 <= i < KeyCount ==> KeyOrder(270).value[i] == KeyOrder(90).value[KeyCount - 1 - i]
  {
    assert KeyOrder(90).value == Order90 && KeyOrder(270).value == Order270;
  }

  /** On its side (USB port to the left) the user's grid is four keys wide, and
      key `i` is the board key with 0-based index `3 * (i % 4) + (2 - i / 4)`. */
  lemma {:induction false} Rotation90GridFormula()
    ensures KeyOrder(90).Success?
    ensures forall i :: 0 <= i < KeyCount ==> KeyOrder(90).value[i] - 1 == 3 * (i % 4) + (2 - i / 4)
  {
  }

  /** The key number the scanner reports for the key on pin `p`: the position of
      `p` in the pin tuple it was built with, or nothing for a pin not in it. */
  function ScannedKeyNumber(pins: seq<int>, p: int): (k: Option<nat>)
    ensures k.Some? <==> p in pins
    ensures k.Some? ==> k.value < |pins| && pins[k.value] == p
  {
    if p in pins then Some(Sequences.IndexOf(pins, p)) else None
  }

  /** Built with `KeyOrder(rotation)`, the scanner reports every board key under the
      number the documented layout gives it, so key 0 is the top-left key as the user
      holds the board, whatever the rotation. */
  lemma {:induction false} ScannerFollowsLayout(rotation: int, p: int)
    requires ValidRotation(rotation) && IsPhysicalKey(p)
    ensures KeyOrder(rotation).Success?
    ensures ScannedKeyNumber(KeyOrder(rotation).value, p) == Some(KeyNumberAt(rotation, p))
  {
    var order := KeyOrder(rotation).value;
    var i := KeyNumberAt(rotation, p);
    PhysicalKeyAtKeyNumberAt(rotation, p);
    assert order[i] == p;
    Sequences.IndexOfDistinct(order, i);
  }

  /** What the constructor configures: the scanner's pin order, the display's
      rotation and the MIDI port's input and output channels. */
  datatype MacroPadConfig = MacroPadConfig(
    keyPins: seq<int>,
    displayRotation: int,
    midiInChannel: int,
    midiOutChannel: int)

  /** MIDI numbers channels 1..16 where CircuitPython numbers them 0..15. */
  function MidiChannel(channel: int): (midi: int)
    ensures midi - 1 == channel
  {
    channel + 1
  }

  /** The shift maps the CircuitPython channels 0..15 one to one onto the MIDI channels 1..16. */
  lemma {:induction false} MidiChannelRange(channel: int)
    ensures 0 <= channel < 16 <==> 1 <= MidiChannel(channel) <= 16
    ensures forall other :: MidiChannel(other) == MidiChannel(channel) ==> other == channel
  {
  }

  /** `MacroPad(rotation, midi_in_channel, midi_out_channel)`: the rotation is checked
      first and an unsupported one raises before anything is configured. */
  function NewMacroPad(rotation: int, midiInChannel: int, midiOutChannel: int): (r: Result<MacroPadConfig, ConfigError>)
    ensures r.Failure? <==> !ValidRotation(rotation)
    ensures r.Failure? ==> r.error == ValueError(RotationMessage)
    ensures r.Success? ==> IsKeyPermutation(r.value.keyPins)
    ensures r.Success? ==> forall i :: 0 <= i < KeyCount ==> r.value.keyPins[i] == PhysicalKeyAt(rotation, i)
    ensures r.Success? ==> r.value.displayRotation == rotation
    ensures r.Success? ==> r.value.midiInChannel - 1 == midiInChannel && r.value.midiOutChannel - 1 == midiOutChannel
  {
    match KeyOrder(rotation)
    case Failure(e) => Failure(e)
    case Success(pins) => Success(MacroPadConfig(pins, rotation, MidiChannel(midiInChannel), MidiChannel(midiOutChannel)))
  }

  /** The defaults, `MacroPad()`: upright board, pins in order, MIDI channel 1 both ways. */
  lemma {:induction false} DefaultMacroPad()
    ensures NewMacroPad(0, 0, 0) == Success(MacroPadConfig(Order0, 0, 1, 1))
  {
  }

  /** The `encoder` property: the raw position counts the other way round, so the
      reading is its negation. */
  function EncoderReading(position: int): (reading: int)
    ensures reading + position == 0
  {
    position * -1
  }

  /** The reading moves by the opposite of whatever the raw count moves by. */
  lemma {:induction false} EncoderReversesDirection(before: int, after: int)
    ensures EncoderReading(after) - EncoderReading(before) == before - after
  {
  }

  /** The `encoder_switch` property: the switch pin is pulled up, so the switch is
      pressed exactly when the pin reads low. */
  function EncoderSwitch(level: bool): (pressed: bool)
    ensures pressed <==> !level
  {
    !level
  }
}

=== FILE: rainbow_keys.dfy ===
/** The rainbow keys demo (examples/macropad_rainbow_keys.py): each press of a key
    toggles whether its LED animates, the grid labels follow the keys as in the
    grid layout demo, and every pass writes all twelve pixels. */
module RainbowKeys {
  import opened Wrappers
  import opened KeyEvents
  import GridLayout

  /** What a pass writes to one pixel: `0`, or `colorwheel(key / 12 * 256 + wheelOffset)`. */
  datatype Pixel = Off | Animated(key: KeyNumber, wheelOffset: int)

  /** `lit_keys`, the `labels` texts and `wheel_offset`. */
  datatype RainbowState = RainbowState(lit: seq<bool>, labels: seq<string>, wheelOffset: int)

  predicate Valid(s: RainbowState)
  {
    |s.lit| == KeyCount && |s.labels| == KeyCount
  }

  /** Before the first pass: no key lit, blank labels, offset 0. */
  const Start := RainbowState(seq(KeyCount, _ => false), seq(KeyCount, _ => ""), 0)

  /** A press flips its key's entry; a release or no event leaves every entry alone. */
  function Toggle(lit: seq<bool>, event: Option<KeyEvent>): (r: seq<bool>)
    requires |lit| == KeyCount
    ensures |r| == KeyCount
    ensures event.Some? && event.value.pressed ==> r[event.value.key] == !lit[event.value.key]
    ensures forall j :: 0 <= j < KeyCount && (event.None? || !event.value.pressed || j != event.value.key) ==>
              r[j] == lit[j]
  {
    match event
    case Some(e) => if e.pressed then lit[e.key := !lit[e.key]] else lit
    case None => lit
  }

  /** Pressing the same key twice restores every entry. */
  lemma {:induction false} PressTwiceRestores(lit: seq<bool>, k: KeyNumber)
    requires |lit| == KeyCount
    ensures Toggle(Toggle(lit, Some(KeyEvent(k, true))), Some(KeyEvent(k, true))) == lit
  {
  }

  /** The toggles after a sequence of passes. */
  function LitAfter(lit: seq<bool>, events: seq<Option<KeyEvent>>): (r: seq<bool>)
    requires |lit| == KeyCount
    ensures |r| == KeyCount
    ensures forall k :: 0 <= k < KeyCount && PressCount(events, k) == 0 ==> r[k] == lit[k]
    decreases |events|
  {
    if |events| == 0 then lit else LitAfter(Toggle(lit, events[0]), events[1..])
  }

  /** How many of `events` are presses of key `k`. */
  function PressCount(events: seq<Option<KeyEvent>>, k: KeyNumber): nat
  {
    if |events| == 0 then 0
    else (if events[0] == Some(KeyEvent(k, true)) then 1 else 0) + PressCount(events[1..], k)
  }

  /** A key's LED animates exactly when it started lit and was pressed an even number
      of times, or started dark and was pressed an odd number of times. */
  lemma {:induction false} LitIsPressParity(lit: seq<bool>, events: seq<Option<KeyEvent>>, k: KeyNumber)
    requires |lit| == KeyCount
    ensures LitAfter(lit, events)[k] == (lit[k] != (PressCount(events, k) % 2 == 1))
    decreases |events|
  {
    if |events| > 0 {
      LitIsPressParity(Toggle(lit, events[0]), events[1..], k);
    }
  }

  /** From the state before the first pass, a key's LED animates exactly when it
      has been pressed an odd number of times. */
  lemma {:induction false} LitFromStartIsOddPresses(events: seq<Option<KeyEvent>>, k: KeyNumber)
    ensures LitAfter(Start.lit, events)[k] <==> PressCount(events, k) % 2 == 1
  {
    LitIsPressParity(Start.lit, events, k);
  }

  /** The `for pixel in range(12)` loop: every pixel is written, in order, animated
      when its key is lit and switched off otherwise. */
  method Frame(lit: seq<bool>, wheelOffset: int) returns (pixels: seq<Pixel>)
    requires |lit| == KeyCount
    ensures |pixels| == KeyCount
    ensures forall i :: 0 <= i < KeyCount ==> (pixels[i] == Off <==> !lit[i])
    ensures forall i :: 0 <= i < KeyCount && lit[i] ==> pixels[i] == Animated(i, wheelOffset)
  {
    pixels := [];
    var pixel := 0;
    while pixel < KeyCount
      invariant 0 <= pixel <= KeyCount && |pixels| == pixel
      invariant forall i :: 0 <= i < pixel ==> pixels[i] == if lit[i] then Animated(i, wheelOffset) else Off
    {
      if lit[pixel] {
        pixels := pixels + [Animated(pixel, wheelOffset)];
      } else {
        pixels := pixels + [Off];
      }
      pixel := pixel + 1;
    }
  }

  /** One pass of the main loop: at most one event updates the label and the toggle
      of its key, the offset advances by one, and the whole strip is rewritten with
      the new offset. */
  method Iteration(s: RainbowState, event: Option<KeyEvent>) returns (next: RainbowState, pixels: seq<Pixel>)
    requires Valid(s)
    ensures Valid(next)
    ensures next.lit == Toggle(s.lit, event) && next.labels == GridLayout.UpdateLabels(s.labels, event)
    ensures next.wheelOffset == s.wheelOffset + 1
    ensures |pixels| == KeyCount
    ensures forall i :: 0 <= i < KeyCount ==> (pixels[i] == Off <==> !next.lit[i])
    ensures forall i :: 0 <= i < KeyCount && next.lit[i] ==> pixels[i] == Animated(i, next.wheelOffset)
  {
    var lit := Toggle(s.lit, event);
    var labels := GridLayout.UpdateLabels(s.labels, event);
    var offset := s.wheelOffset + 1;
    pixels := Frame(lit, offset);
    next := RainbowState(lit, labels, offset);
  }
}

=== FILE: sequences.dfy ===
/** Python list operations the examples rely on, stated over sequences. */
module Sequences {

  /** Position of the first occurrence of `x` in `s` (Python's `list.index`). */
  function IndexOf<T(==)>(s: seq<T>, x: T): (i: nat)
    requires x in s
    ensures i < |s| && s[i] == x
    ensures x !in s[..i]
  {
    if s[0] == x then 0
    else
      assert s == [s[0]] + s[1..];
      var j := IndexOf(s[1..], x);
      assert s[..j + 1] == [s[0]] + s[1..][..j];
      j + 1
  }

  /** Python's `list.remove`: drops the first occurrence of `x`, which must be present
      (the list method raises `ValueError` otherwise). */
  function RemoveFirst<T(==)>(s: seq<T>, x: T): (r: seq<T>)
    requires x in s
    ensures |r| == |s| - 1
    ensures r == s[..IndexOf(s, x)] + s[IndexOf(s, x) + 1..]
  {
    if s[0] == x then
      assert s == [x] + s[1..];
      s[1..]
    else
      var t := s[1..];
      var j := IndexOf(t, x);
      var rest := RemoveFirst(t, x);
      assert IndexOf(s, x) == j + 1;
      assert s[..j + 1] == [s[0]] + t[..j];
      assert s[j + 2..] == t[j + 1..];
      assert [s[0]] + (t[..j] + t[j + 1..]) == ([s[0]] + t[..j]) + t[j + 1..];
      [s[0]] + rest
  }

  /** `list.remove` takes away exactly one copy of the element and keeps every other one. */
  lemma {:induction false} RemoveFirstMultiset<T>(s: seq<T>, x: T)
    requires x in s
    ensures multiset(RemoveFirst(s, x)) == multiset(s) - multiset{x}
  {
    var i := IndexOf(s, x);
    assert s == s[..i] + [x] + s[i + 1..];
    assert multiset(s) == multiset(s[..i]) + multiset{x} + multiset(s[i + 1..]);
  }

  /** No element occurs twice. */
  predicate Distinct<T(==)>(s: seq<T>)
  {
    forall i, j :: 0 <= i < j < |s| ==> s[i] != s[j]
  }

  /** Removing an element from a distinct sequence keeps it distinct. */
  lemma {:induction false} RemoveFirstDistinct<T>(s: seq<T>, x: T)
    requires x in s && Distinct(s)
    ensures Distinct(RemoveFirst(s, x))
  {
    var i := IndexOf(s, x);
    var r := RemoveFirst(s, x);
    assert r == s[..i] + s[i + 1..];
    forall a | 0 <= a < |r|
      ensures r[a] == s[if a < i then a else a + 1]
    {
      if a < i {
        assert r[a] == s[..i][a];
      } else {
        assert r[a] == s[i + 1..][a - i];
      }
    }
    forall a, b | 0 <= a < b < |r|
      ensures r[a] != r[b]
    {
      assert r[a] == s[if a < i then a else a + 1];
      assert r[b] == s[if b < i then b else b + 1];
    }
  }

  /** In a sequence without repeats an element's first occurrence is its only one. */
  lemma {:induction false} IndexOfDistinct<T>(s: seq<T>, i: nat)
    requires Distinct(s) && i < |s|
    ensures IndexOf(s, s[i]) == i
  {
  }
}

=== FILE: tone_keypad.dfy ===
/** One pass of the main loop of the extended tone demo
    (examples/macropad_tone_keypad_extended.py): pending key events update a stack
    of pressed keys in press order, the most recently pressed key's tone plays, and
    the pixels of the pressed keys are repainted whenever an event arrived. The
    speaker and pixel calls the loop makes are recorded as a trace of `Call`s. */
module ToneKeypad {
  import opened Wrappers
  import opened KeyEvents
  import Sequences
  import Arithmetic

  /** Tone frequency, in Hz, for each key. */
  const Tones: seq<int> := [196, 220, 246, 262, 294, 330, 349, 392, 440, 494, 523, 587]

  /** `int(255 / 12)`: colour-wheel distance between neighbouring keys. */
  const WheelStep := 255 / 12

  /* ---- rgb_from_int ----
     Python's `&` and `>>` on an int act on its infinite two's complement form:
     `x & 255` is the remainder of `x` by 256 taken non-negative and `x >> n` is
     the floor of `x / 2^n`, which is what `%` and `/` by a positive divisor are. */

  /** Splits a packed `0xRRGGBB` colour into its red, green and blue bytes. */
  function RgbFromInt(rgb: int): (c: (int, int, int))
    ensures 0 <= c.0 < 256 && 0 <= c.1 < 256 && 0 <= c.2 < 256
    ensures 0 <= rgb < 0x100_0000 ==> c.0 * 0x1_0000 + c.1 * 0x100 + c.2 == rgb
  {
    var blue := rgb % 0x100;
    var green := (rgb / 0x100) % 0x100;
    var red := (rgb / 0x1_0000) % 0x100;
    (red, green, blue)
  }

  /** Packs three bytes as `0xRRGGBB`. */
  function IntFromRgb(red: int, green: int, blue: int): int
  {
    red * 0x1_0000 + green * 0x100 + blue
  }

  /** Splitting a packed colour gives back the bytes it was packed from. */
  lemma {:induction false} RgbRoundTrip(red: int, green: int, blue: int)
    requires 0 <= red < 256 && 0 <= green < 256 && 0 <= blue < 256
    ensures RgbFromInt(IntFromRgb(red, green, blue)) == (red, green, blue)
  {
    var n := IntFromRgb(red, green, blue);
    assert n / 0x100 == red * 0x100 + green;
    assert n / 0x1_0000 == red;
  }

  /** Splitting then packing keeps exactly the low 24 bits of any int, negative ones included. */
  lemma {:induction false} RgbKeepsLow24Bits(rgb: int)
    ensures var c := RgbFromInt(rgb); IntFromRgb(c.0, c.1, c.2) == rgb % 0x100_0000
  {
    var blue, q1 := rgb % 0x100, rgb / 0x100;
    var green, q2 := q1 % 0x100, q1 / 0x100;
    var red, q3 := q2 % 0x100, q2 / 0x100;
    assert rgb == q1 * 0x100 + blue;
    assert q1 == q2 * 0x100 + green;
    assert q2 == q3 * 0x100 + red;
    Arithmetic.DivModUnique(rgb, 0x1_0000, q2, green * 0x100 + blue);
    Arithmetic.DivModUnique(rgb, 0x100_0000, q3, IntFromRgb(red, green, blue));
  }

  /* ---- Trace and state ---- */

  /** A call the loop makes on the speaker or the pixels. `PixelColour` stands for
      `pixels[key] = colorwheel(wheelPosition)`, at full brightness or dimmed to
      ten percent; `PixelOff` for `pixels[key] = 0`. */
  datatype Call =
    | StartTone(frequency: int)
    | StopTone
    | PixelOff(key: KeyNumber)
    | PixelColour(key: KeyNumber, wheelPosition: int, dimmed: bool)
    | ShowPixels

  /** `key_pressed_stack` and `playing_index`. */
  datatype ToneState = ToneState(stack: seq<KeyNumber>, playing: Option<KeyNumber>)

  /** The state before the first pass: nothing pressed, nothing playing. */
  const Start := ToneState([], None)

  /** The last element of the stack, the most recently pressed key, if any. */
  function Top(stack: seq<KeyNumber>): Option<KeyNumber>
  {
    if |stack| > 0 then Some(stack[|stack| - 1]) else None
  }

  /* ---- Draining the event queue ---- */

  /** One event's effect on the stack: a press appends the key, a release removes it. */
  function Apply(stack: seq<KeyNumber>, e: KeyEvent): (r: seq<KeyNumber>)
    requires e.pressed || e.key in stack
    ensures e.pressed ==> |r| == |stack| + 1 && Top(r) == Some(e.key) && r[..|stack|] == stack
    ensures !e.pressed ==> |r| == |stack| - 1 && multiset(r) == multiset(stack) - multiset{e.key}
    ensures !e.pressed ==> r == stack[..Sequences.IndexOf(stack, e.key)] + stack[Sequences.IndexOf(stack, e.key) + 1..]
  {
    if e.pressed then stack + [e.key]
    else
      Sequences.RemoveFirstMultiset(stack, e.key);
      Sequences.RemoveFirst(stack, e.key)
  }

  /** Every release in `events` is of a key on the stack when it arrives; `list.remove`
      raises `ValueError` otherwise. */
  predicate ReleasesHeld(stack: seq<KeyNumber>, events: seq<KeyEvent>)
    decreases |events|
  {
    |events| == 0 ||
    ((events[0].pressed || events[0].key in stack) && ReleasesHeld(Apply(stack, events[0]), events[1..]))
  }

  /** The keys of the presses in `events`, in order. */
  function Presses(events: seq<KeyEvent>): seq<KeyNumber>
  {
    if |events| == 0 then []
    else (if events[0].pressed then [events[0].key] else []) + Presses(events[1..])
  }

  /** The keys of the releases in `events`, in order. */
  function Releases(events: seq<KeyEvent>): seq<KeyNumber>
  {
    if |events| == 0 then []
    else (if events[0].pressed then [] else [events[0].key]) + Releases(events[1..])
  }

  /** `calls` switches off the pixels of `keys`, one call per key, in the same order. */
  predicate SwitchesOff(calls: seq<Call>, keys: seq<KeyNumber>)
  {
    |calls| == |keys| && forall i :: 0 <= i < |calls| ==> calls[i] == PixelOff(keys[i])
  }

  lemma {:induction false} SwitchesOffAppend(c1: seq<Call>, k1: seq<KeyNumber>, c2: seq<Call>, k2: seq<KeyNumber>)
    requires SwitchesOff(c1, k1) && SwitchesOff(c2, k2)
    ensures SwitchesOff(c1 + c2, k1 + k2)
  {
    forall i | 0 <= i < |c1 + c2|
      ensures (c1 + c2)[i] == PixelOff((k1 + k2)[i])
    {
      if i >= |c1| {
        assert (c1 + c2)[i] == c2[i - |c1|];
      }
    }
  }

  /** The inner `while macropad.keys.events` loop: the stack after all pending events,
      and the pixel of each released key switched off, in the order of the releases. */
  function Drain(stack: seq<KeyNumber>, events: seq<KeyEvent>): (r: (seq<KeyNumber>, seq<Call>))
    requires ReleasesHeld(stack, events)
    ensures |r.0| + |Releases(events)| == |stack| + |Presses(events)|
    ensures SwitchesOff(r.1, Releases(events))
    decreases |events|
  {
    if |events| == 0 then (stack, [])
    else
      var e := events[0];
      var r' := Drain(Apply(stack, e), events[1..]);
      assert Presses(events) == (if e.pressed then [e.key] else []) + Presses(events[1..]);
      assert Releases(events) == (if e.pressed then [] else [e.key]) + Releases(events[1..]);
      SwitchesOffAppend(if e.pressed then [] else [PixelOff(e.key)], if e.pressed then [] else [e.key],
                        r'.1, Releases(events[1..]));
      (r'.0, (if e.pressed then [] else [PixelOff(e.key)]) + r'.1)
  }

  /* ---- The stack lists the held keys in press order ----
     On the board a key is pressed only while it is up and released only while it
     is down. Under that discipline the stack is fully determined by the history:
     the keys of the old stack that saw no new event, followed by the keys whose
     press in this batch was their last event, in the order of those presses. */

  /** Presses only of keys not on the stack, releases only of keys on it. */
  predicate Alternating(stack: seq<KeyNumber>, events: seq<KeyEvent>)
    decreases |events|
  {
    |events| == 0 ||
    ((if events[0].pressed then events[0].key !in stack else events[0].key in stack)
     && Alternating(Apply(stack, events[0]), events[1..]))
  }

  /** No event in `events` concerns key `k`. */
  predicate Untouched(events: seq<KeyEvent>, k: KeyNumber)
    decreases |events|
  {
    |events| == 0 || (events[0].key != k && Untouched(events[1..], k))
  }

  /** The keys of `stack`, in order, that no event in `events` concerns. */
  function StillHeld(stack: seq<KeyNumber>, events: seq<KeyEvent>): seq<KeyNumber>
  {
    if |stack| == 0 then []
    else (if Untouched(events, stack[0]) then [stack[0]] else []) + StillHeld(stack[1..], events)
  }

  /** The keys pressed in `events` and not touched again afterwards, in press order. */
  function LastPresses(events: seq<KeyEvent>): seq<KeyNumber>
  {
    if |events| == 0 then []
    else
      (if events[0].pressed && Untouched(events[1..], events[0].key) then [events[0].key] else [])
      + LastPresses(events[1..])
  }

  lemma {:induction false} AlternatingReleasesHeld(stack: seq<KeyNumber>, events: seq<KeyEvent>)
    requires Alternating(stack, events)
    ensures ReleasesHeld(stack, events)
    decreases |events|
  {
    if |events| > 0 {
      AlternatingReleasesHeld(Apply(stack, events[0]), events[1..]);
    }
  }

  lemma {:induction false} StillHeldAll(stack: seq<KeyNumber>)
    ensures StillHeld(stack, []) == stack
  {
    if |stack| > 0 {
      StillHeldAll(stack[1..]);
      assert stack == [stack[0]] + stack[1..];
    }
  }

  lemma {:induction false} StillHeldAppend(a: seq<KeyNumber>, b: seq<KeyNumber>, events: seq<KeyEvent>)
    ensures StillHeld(a + b, events) == StillHeld(a, events) + StillHeld(b, events)
  {
    if |a| == 0 {
      assert a + b == b;
    } else {
      var head := if Untouched(events, a[0]) then [a[0]] else [];
      StillHeldAppend(a[1..], b, events);
      assert (a + b)[0] == a[0];
      assert (a + b)[1..] == a[1..] + b;
      calc {
        StillHeld(a + b, events);
        head + StillHeld(a[1..] + b, events);
        head + (StillHeld(a[1..], events) + StillHeld(b, events));
        (head + StillHeld(a[1..], events)) + StillHeld(b, events);
        StillHeld(a, events) + StillHeld(b, events);
      }
    }
  }

  /** An event on a key not on the stack does not change which stack keys are untouched. */
  lemma {:induction false} StillHeldSkip(stack: seq<KeyNumber>, events: seq<KeyEvent>)
    requires |events| > 0 && events[0].key !in stack
    ensures StillHeld(stack, events) == StillHeld(stack, events[1..])
  {
    if |stack| > 0 {
      StillHeldSkip(stack[1..], events);
    }
  }

  /** A release of a stack key drops exactly that key from the untouched keys. */
  lemma {:induction false} StillHeldRelease(stack: seq<KeyNumber>, events: seq<KeyEvent>)
    requires |events| > 0 && !events[0].pressed && events[0].key in stack && Sequences.Distinct(stack)
    ensures StillHeld(stack, events) == StillHeld(Sequences.RemoveFirst(stack, events[0].key), events[1..])
  {
    var k := events[0].key;
    if stack[0] == k {
      assert k !in stack[1..] by {
        forall i | 0 <= i < |stack[1..]| ensures stack[1..][i] != k {
          assert stack[i + 1] != stack[0];
        }
      }
      StillHeldSkip(stack[1..], events);
    } else {
      assert Sequences.Distinct(stack[1..]) by {
        forall i, j | 0 <= i < j < |stack[1..]| ensures stack[1..][i] != stack[1..][j] {
          assert stack[i + 1] != stack[j + 1];
        }
      }
      StillHeldRelease(stack[1..], events);
    }
  }

  /** The stack after a batch is the old stack's untouched keys followed by the keys
      last pressed in the batch, in press order, and it never holds a key twice. */
  lemma {:induction false} StackIsPressOrder(stack: seq<KeyNumber>, events: seq<KeyEvent>)
    requires Sequences.Distinct(stack) && Alternating(stack, events)
    ensures ReleasesHeld(stack, events)
    ensures Drain(stack, events).0 == StillHeld(stack, events) + LastPresses(events)
    ensures Sequences.Distinct(Drain(stack, events).0)
    decreases |events|
  {
    AlternatingReleasesHeld(stack, events);
    if |events| == 0 {
      StillHeldAll(stack);
    } else {
      var next := Apply(stack, events[0]);
      ApplyKeepsDistinct(stack, events[0]);
      StackIsPressOrder(next, events[1..]);
      DrainFirst(stack, events);
      PressOrderStep(stack, events);
    }
  }

  /** Draining a batch is applying its first event, then draining the rest. */
  lemma {:induction false} DrainFirst(stack: seq<KeyNumber>, events: seq<KeyEvent>)
    requires |events| > 0 && ReleasesHeld(stack, events)
    ensures ReleasesHeld(Apply(stack, events[0]), events[1..])
    ensures Drain(stack, events).0 == Drain(Apply(stack, events[0]), events[1..]).0
  {
  }

  /** A press of a key not on the stack and a release of a key on it keep the stack free of repeats. */
  lemma {:induction false} ApplyKeepsDistinct(stack: seq<KeyNumber>, e: KeyEvent)
    requires Sequences.Distinct(stack)
    requires if e.pressed then e.key !in stack else e.key in stack
    ensures Sequences.Distinct(Apply(stack, e))
  {
    if e.pressed {
      var next := stack + [e.key];
      forall i, j | 0 <= i < j < |next| ensures next[i] != next[j] {
        if j == |stack| {
          assert next[i] == stack[i];
        }
      }
    } else {
      Sequences.RemoveFirstDistinct(stack, e.key);
    }
  }

  /** The reference order is unchanged by applying the first event to the stack. */
  lemma {:induction false} PressOrderStep(stack: seq<KeyNumber>, events: seq<KeyEvent>)
    requires |events| > 0 && Sequences.Distinct(stack)
    requires if events[0].pressed then events[0].key !in stack else events[0].key in stack
    ensures StillHeld(Apply(stack, events[0]), events[1..]) + LastPresses(events[1..])
         == StillHeld(stack, events) + LastPresses(events)
  {
    if events[0].pressed {
      assert Apply(stack, events[0]) == stack + [events[0].key];
      PressStep(stack, events);
    } else {
      assert Apply(stack, events[0]) == Sequences.RemoveFirst(stack, events[0].key);
      assert LastPresses(events) == LastPresses(events[1..]);
      StillHeldRelease(stack, events);
    }
  }

  lemma {:induction false} PressStep(stack: seq<KeyNumber>, events: seq<KeyEvent>)
    requires |events| > 0 && events[0].pressed && events[0].key !in stack
    ensures StillHeld(stack + [events[0].key], events[1..]) + LastPresses(events[1..])
         == StillHeld(stack, events) + LastPresses(events)
  {
    var k := events[0].key;
    var rest := events[1..];
    var mine := if Untouched(rest, k) then [k] else [];
    assert LastPresses(events) == mine + LastPresses(rest);
    StillHeldAppend(stack, [k], rest);
    assert StillHeld([k], rest) == mine + StillHeld([], rest);
    StillHeldSkip(stack, events);
  }

  /** From an empty stack the stack lists the keys still held, in the order they were pressed. */
  lemma {:induction false} FromEmptyStackIsPressOrder(events: seq<KeyEvent>)
    requires Alternating([], events)
    ensures ReleasesHeld([], events)
    ensures Drain([], events).0 == LastPresses(events)
  {
    StackIsPressOrder([], events);
  }

  /* ---- Choosing the tone ---- */

  /** Follows the speaker through a trace, starting with a tone sounding (`active`)
      or not: whether one sounds afterwards, or nothing if the trace starts a tone
      while one sounds or stops one while none does. */
  function ToneActivity(active: bool, calls: seq<Call>): Option<bool>
    decreases |calls|
  {
    if |calls| == 0 then Some(active)
    else match calls[0]
      case StartTone(_) => if active then None else ToneActivity(true, calls[1..])
      case StopTone => if active then ToneActivity(false, calls[1..]) else None
      case _ => ToneActivity(active, calls[1..])
  }

  /** Following a trace in two pieces is following it whole. */
  lemma {:induction false} ToneActivityAppend(active: bool, a: seq<Call>, b: seq<Call>)
    ensures ToneActivity(active, a + b)
         == match ToneActivity(active, a) { case None => None case Some(after) => ToneActivity(after, b) }
    decreases |a|
  {
    if |a| > 0 {
      assert (a + b)[0] == a[0];
      assert (a + b)[1..] == a[1..] + b;
      match a[0]
      case StartTone(_) => ToneActivityAppend(true, a[1..], b);
      case StopTone => ToneActivityAppend(false, a[1..], b);
      case _ => ToneActivityAppend(active, a[1..], b);
    } else {
      assert a + b == b;
    }
  }

  /** `tones`, the trace's speaker calls only. */
  predicate OnlyToneCalls(calls: seq<Call>)
  {
    forall i :: 0 <= i < |calls| ==> calls[i].StartTone? || calls[i].StopTone?
  }

  /** The `if pressed_count > 0 ... else ...` block: the tone of the most recently
      pressed key plays, nothing plays when no key is down, and a tone that must
      change is stopped before the next one starts. */
  function SelectTone(stack: seq<KeyNumber>, playing: Option<KeyNumber>): (r: (Option<KeyNumber>, seq<Call>))
    ensures r.0 == Top(stack)
    ensures ToneActivity(playing.Some?, r.1) == Some(r.0.Some?)
    ensures OnlyToneCalls(r.1)
    ensures r.1 == [] <==> playing == Top(stack)
    ensures forall i :: 0 <= i < |r.1| && r.1[i].StartTone? ==>
              r.0.Some? && r.1[i].frequency == Tones[r.0.value] && i == |r.1| - 1
  {
    if |stack| > 0 then
      var top := stack[|stack| - 1];
      if Some(top) != playing then
        var calls := (if playing.Some? then [StopTone] else []) + [StartTone(Tones[top])];
        var start := [StartTone(Tones[top])];
        assert start[1..] == [];
        assert ToneActivity(false, start) == Some(true);
        assert playing.Some? ==> calls[0] == StopTone && calls[1..] == start;
        (Some(top), calls)
      else
        (playing, [])
    else if playing.Some? then
      (None, [StopTone])
    else
      (None, [])
  }

  /* ---- Repainting ---- */

  /** The `for key_index in key_pressed_stack` repaint: each pressed key's pixel,
      in stack order, at full brightness for the playing key and dimmed otherwise. */
  function Repaint(stack: seq<KeyNumber>, playing: Option<KeyNumber>): (calls: seq<Call>)
    ensures |calls| == |stack|
    ensures forall i :: 0 <= i < |calls| ==>
              calls[i].PixelColour? && calls[i].key == stack[i] && calls[i].wheelPosition == WheelStep * stack[i]
              && (calls[i].dimmed <==> playing != Some(stack[i]))
  {
    if |stack| == 0 then []
    else [PixelColour(stack[0], WheelStep * stack[0], playing != Some(stack[0]))] + Repaint(stack[1..], playing)
  }

  /** With the top of a stack without repeats playing, exactly the top key is bright. */
  lemma {:induction false} OnlyTopIsBright(stack: seq<KeyNumber>)
    requires Sequences.Distinct(stack)
    ensures forall i :: 0 <= i < |stack| ==> (Repaint(stack, Top(stack))[i].dimmed <==> i != |stack| - 1)
  {
  }

  /* ---- One pass of the main loop ---- */

  /** Drains the pending events, picks the tone, and repaints and shows the pixels
      when at least one event arrived. */
  function Step(state: ToneState, events: seq<KeyEvent>): (r: (ToneState, seq<Call>))
    requires ReleasesHeld(state.stack, events)
    ensures r.0.stack == Drain(state.stack, events).0
    ensures r.0.playing == Top(r.0.stack)
    ensures ToneActivity(state.playing.Some?, r.1) == Some(r.0.playing.Some?)
    ensures ShowPixels in r.1 <==> |events| > 0
    ensures forall k :: PixelOff(k) in r.1 <==> k in Releases(events)
    ensures TraceShape(r.1, Releases(events), SelectTone(r.0.stack, state.playing).1,
                       Paint(r.0.stack, r.0.playing, events != []))
  {
    var drained := Drain(state.stack, events);
    var chosen := SelectTone(drained.0, state.playing);
    var paint := Paint(drained.0, chosen.0, events != []);
    StepTrace(state.playing.Some?, drained.1, Releases(events), chosen.0.Some?, chosen.1, paint);
    (ToneState(drained.0, chosen.0), drained.1 + chosen.1 + paint)
  }

  /** The `if update_pixels:` block: the repaint followed by `show` when an event
      arrived, nothing otherwise. */
  function Paint(stack: seq<KeyNumber>, playing: Option<KeyNumber>, updatePixels: bool): (calls: seq<Call>)
    ensures forall i :: 0 <= i < |calls| ==> calls[i].PixelColour? || calls[i].ShowPixels?
    ensures ShowPixels in calls <==> updatePixels
  {
    if updatePixels then
      var repaint := Repaint(stack, playing) + [ShowPixels];
      assert repaint[|repaint| - 1] == ShowPixels;
      repaint
    else []
  }

  /** A pass's trace in its three parts, in order: the pixel-off calls of the released
      keys, then exactly the speaker calls `tones`, then `paint`. */
  predicate TraceShape(trace: seq<Call>, released: seq<KeyNumber>, tones: seq<Call>, paint: seq<Call>)
  {
    |released| + |tones| + |paint| == |trace|
    && SwitchesOff(trace[..|released|], released)
    && trace[|released|..|trace| - |paint|] == tones
    && trace[|trace| - |paint|..] == paint
  }

  /** The trace of a pass: pixel-off calls, then speaker calls, then repaint calls. */
  lemma {:induction false} StepTrace(active: bool, offs: seq<Call>, released: seq<KeyNumber>, after: bool,
                  tones: seq<Call>, paint: seq<Call>)
    requires SwitchesOff(offs, released)
    requires OnlyToneCalls(tones) && ToneActivity(active, tones) == Some(after)
    requires forall i :: 0 <= i < |paint| ==> paint[i].PixelColour? || paint[i].ShowPixels?
    ensures ToneActivity(active, offs + tones + paint) == Some(after)
    ensures forall k :: PixelOff(k) in offs + tones + paint <==> k in released
    ensures ShowPixels in offs + tones + paint <==> ShowPixels in paint
    ensures TraceShape(offs + tones + paint, released, tones, paint)
  {
    var t := offs + tones + paint;
    assert t[..|offs|] == offs;
    assert t[|offs|..|t| - |paint|] == tones;
    assert t[|t| - |paint|..] == paint;
    OffsKeepTone(active, offs, released);
    PaintKeepsTone(after, paint);
    ToneActivityAppend(active, offs, tones);
    ToneActivityAppend(active, offs + tones, paint);
    forall k
      ensures PixelOff(k) in offs <==> k in released
    {
      if k in released {
        var i :| 0 <= i < |released| && released[i] == k;
        assert offs[i] == PixelOff(k);
      }
    }
    forall c | c in tones
      ensures c.StartTone? || c.StopTone?
    {
      var i :| 0 <= i < |tones| && tones[i] == c;
    }
    forall c | c in paint
      ensures c.PixelColour? || c.ShowPixels?
    {
      var i :| 0 <= i < |paint| && paint[i] == c;
    }
    forall c | c in offs
      ensures c.PixelOff?
    {
      var i :| 0 <= i < |offs| && offs[i] == c;
    }
  }

  /** Pixel-off calls leave the speaker as it was. */
  lemma {:induction false} OffsKeepTone(active: bool, calls: seq<Call>, keys: seq<KeyNumber>)
    requires SwitchesOff(calls, keys)
    ensures ToneActivity(active, calls) == Some(active)
  {
    if |calls| > 0 {
      OffsKeepTone(active, calls[1..], keys[1..]);
    }
  }

  /** Repainting and showing the pixels leaves the speaker as it was. */
  lemma {:induction false} PaintKeepsTone(active: bool, calls: seq<Call>)
    requires forall i :: 0 <= i < |calls| ==> calls[i].PixelColour? || calls[i].ShowPixels?
    ensures ToneActivity(active, calls) == Some(active)
  {
    if |calls| > 0 {
      PaintKeepsTone(active, calls[1..]);
    }
  }

  /* ---- Many passes ---- */

  /** Every batch's releases are of held keys when it is drained. */
  predicate RunReleasesHeld(state: ToneState, batches: seq<seq<KeyEvent>>)
    decreases |batches|
  {
    |batches| == 0 ||
    (ReleasesHeld(state.stack, batches[0]) && RunReleasesHeld(Step(state, batches[0]).0, batches[1..]))
  }

  /** Passes of the main loop, one per batch of pending events; the traces of the
      passes are concatenated. */
  function Run(state: ToneState, batches: seq<seq<KeyEvent>>): (r: (ToneState, seq<Call>))
    requires RunReleasesHeld(state, batches)
    ensures |batches| == 0 ==> r == (state, [])
    ensures |batches| > 0 ==> r.0.playing == Top(r.0.stack)
    decreases |batches|
  {
    if |batches| == 0 then (state, [])
    else
      var first := Step(state, batches[0]);
      var rest := Run(first.0, batches[1..]);
      (rest.0, first.1 + rest.1)
  }

  /** Over any number of passes `start_tone` and `stop_tone` strictly alternate: a
      tone is never started over a sounding one nor stopped when none sounds, and
      one sounds at the end exactly when a key is still held. */
  lemma {:induction false} ToneCallsAlternate(state: ToneState, batches: seq<seq<KeyEvent>>)
    requires RunReleasesHeld(state, batches)
    requires state.playing == Top(state.stack)
    ensures Run(state, batches).0.playing == Top(Run(state, batches).0.stack)
    ensures ToneActivity(state.playing.Some?, Run(state, batches).1) == Some(|Run(state, batches).0.stack| > 0)
    decreases |batches|
  {
    if |batches| > 0 {
      var first := Step(state, batches[0]);
      ToneCallsAlternate(first.0, batches[1..]);
      ToneActivityAppend(state.playing.Some?, first.1, Run(first.0, batches[1..]).1);
    }
  }

  /** From power-on the speaker calls of the whole run alternate, beginning with
      `start_tone`, and a tone sounds at the end exactly when a key is held. */
  lemma {:induction false} ToneCallsAlternateFromStart(batches: seq<seq<KeyEvent>>)
    requires RunReleasesHeld(Start, batches)
    ensures ToneActivity(false, Run(Start, batches).1) == Some(|Run(Start, batches).0.stack| > 0)
  {
    ToneCallsAlternate(Start, batches);
  }
}

=== FILE: wrappers.dfy ===
/** Failure-carrying values: `Option` for Python's `None`-or-value and `Result`
    for an operation that either produces a value or raises an exception. */
module Wrappers {

  datatype Option<+T> = None | Some(value: T)

  datatype Result<+R, +E> = Success(value: R) | Failure(error: E)
}
